=== FILE: README.md ===
# Compatibility predictor: local fallback scorer

A Dafny model of the browser-side "compatibility predictor" in
`js/prediction.js`. Given two people's profiles (name, gender, birthday,
hobbies), the predictor first tries a remote chat model. On any failure it
falls back to a local heuristic scorer. The local scorer computes five
sub-scores: personality, hobbies, lifestyle, zodiac and long-term. It
combines them into a weighted overall score and picks one of six fixed
summary texts by score bracket. The heuristic scorer is the core of the
model, and its bounds, symmetries and case analyses are proved.

Modelling choices:

- **Random numbers.** Every `Math.random()` call is an explicit `Draw`
  parameter, a real in [0, 1). All functions are then deterministic, and
  their contracts hold for every possible draw. A run of the fallback
  consumes ten draws. They are grouped in `FallbackDraws`, because the
  long-term score recomputes the personality, hobby and lifestyle scores
  with fresh draws of its own.
- **Numbers.** Weighted sums are Dafny `real`s. `Math.round(x)` is
  `(x + 0.5).Floor`. `Math.min(hi, Math.max(lo, x))` is `Clamp`.
  `Math.floor(Math.random() * k)` is `RandomInt`.
- **NaN.** A score that can be NaN has type `Num = Finite(int) | NaN`.
  When both names are empty, the name score's union is 0 and `0 / 0` is
  NaN. That NaN then flows through the personality, long-term and overall
  scores. The summary chain's `>=` tests are all false for NaN, so the
  bottom bracket's text is chosen.
- **Dates.** Birthdays are decoded `(year, month 1..12, day 1..31)`
  triples. The month differences taken from `getMonth()` are 0-based in
  the source, but a difference is the same either way.

Modules: `JsMath` (rounding, clamping, draws, NaN), `Profiles` (dates,
people, ASCII case folding, substring search), `Counting` (set-size facts), `NameMatch`,
`Personality` (birthday, gender, personality), `Hobbies`, `Lifestyle`,
`Zodiac`, `Summary`, and `Predictor` (long-term score, weighted total,
fallback result, remote path and the entry point).

Facts about the code that a reader might not expect, each proved:

- Hobby similarity is not symmetric: only entries of the first list are
  counted, so swapping the lists can change the score
  (`Hobbies.HobbiesMatchAsymmetric`).
- The hobby ratio is not bounded by 1: every repeated entry of the first
  list counts again in the numerator, while the denominator counts
  distinct hobbies. `n` copies of one hobby against that hobby give a
  ratio of `n` (`Hobbies.RepeatedHobbyRatioGrows`); only the final clamp
  keeps the score at 100.
- Not every score is a number: when both names are empty the overall
  score is NaN (`Predictor.FallbackPrediction`).
- The zodiac compatibility table is symmetric (`Zodiac.TableSymmetric`).
- The third branch of the gender score, with its [70, 100] range, can
  never be taken: the first two tests are complementary
  (`Personality.GenderCompatibility`).

## Model

| member | source | states |
|---|---|---|
| Profiles.ToLower | js/prediction.js:184 | An upper-case ASCII letter becomes the lower-case letter 32 code points above it ('A' to 'a'); every other character is left unchanged. |
| Profiles.ToLowerFoldsCase | js/prediction.js:184 | Two characters fold to the same character exactly when they are equal or one is the upper-case ASCII form of the other. |
| Profiles.Lower | js/prediction.js:184-185 | `Lower` keeps the length and maps each character to its lower-case form (ASCII letters folded, every other character kept). |
| Profiles.LowerAll | js/prediction.js:256-257 | Lowering a hobby list keeps its length and lowers each entry in place. |
| NameMatch.CharSet | js/prediction.js:184-185 | A character is in the name's set exactly when it occurs in the lowered name, and the set is empty exactly when the name is. |
| Counting.UnionSize | js/prediction.js:196 | The union size computed as size(A) + size(B) − size(A ∩ B) is the size of the union (inclusion-exclusion). |
| NameMatch.SharedAndUnionBounds | js/prediction.js:188-196 | The intersection count is at most each set's size; the union count is at least each set's size. |
| NameMatch.CountShared | js/prediction.js:188-193 | The counting loop over the first name's character set returns exactly the size of the intersection. |
| NameMatch.Jaccard | js/prediction.js:196-199 | The similarity lies in [0, 1]; it is 1 exactly when the two character sets are equal, and 0 exactly when they share nothing. |
| NameMatch.JaccardSymmetric | js/prediction.js:199 | The similarity does not depend on argument order. |
| NameMatch.NameCompatibility | js/prediction.js:182-203 | The result is NaN exactly when both names are empty; otherwise it is a number in [40, 100]. |
| NameMatch.NameCompatibilitySymmetric | js/prediction.js:182-203 | Swapping the names leaves the score unchanged for the same draw. |
| NameMatch.NameScoreIgnoresCase | js/prediction.js:184-185 | Replacing a name by any name with the same lower-case form leaves the name score unchanged. |
| NameMatch.UpperAndLowerNameScoreFull | js/prediction.js:182-203 | "ALICE" against "alice" scores 100 whatever the draw. |
| NameMatch.SameNameScoresFull | js/prediction.js:199-202 | Two equal non-empty names score 100 whatever the draw. |
| Personality.AgeDiffScore | js/prediction.js:212-215 | The age score lies in [0, 100]; it is 100 exactly for the same year and 0 exactly at 20 or more years apart. |
| Personality.MonthDayScore | js/prediction.js:218-222 | The month-and-day score lies in [0, 100] and is 100 exactly when month and day agree. |
| Personality.BirthdayCompatibility | js/prediction.js:206-226 | The birthday score lies in [0, 100]. It is 100 exactly when year and month agree and the days differ by at most 1, so identical dates score 100. |
| Personality.BirthdayCompatibilitySymmetric | js/prediction.js:206-226 | Swapping the birthdays leaves the score unchanged. |
| Personality.GenderCompatibility | js/prediction.js:229-241 | The gender score always lies in [85, 100]: the third branch, with its [70, 100] range, is unreachable. |
| Personality.GenderIgnoresGenders | js/prediction.js:229-241 | The gender score is the same for any two pairs of genders under the same draw. |
| Personality.PersonalityMatch | js/prediction.js:164-179 | The personality score is NaN exactly when both names are empty; otherwise it lies in [33, 100]. |
| Personality.PersonalityMatchSymmetric | js/prediction.js:164-179 | Swapping the two people leaves the personality score unchanged. |
| Profiles.IncludesIffOccurs | js/prediction.js:262 | `includes` holds exactly when the needle occurs at some position of the haystack. |
| Hobbies.OverlapsIffSome | js/prediction.js:262 | The `some` scan succeeds exactly when some entry of the other list contains the hobby or is contained in it. |
| Hobbies.CommonCountBound | js/prediction.js:259-265 | The common count is at most the first list's length. It equals that length exactly when every entry overlaps. |
| Hobbies.DistinctCount | js/prediction.js:268 | The distinct-hobby count is positive when either list is non-empty and at most the total length. |
| Hobbies.HobbiesMatch | js/prediction.js:244-273 | The score is exactly 50 when both lists are empty, in [40, 59] when exactly one is empty, and in [30, 100] otherwise. |
| Hobbies.HobbyScoreIgnoresCase | js/prediction.js:255-257 | Replacing the first hobby list by any list with the same lower-case entries leaves the hobby score unchanged; the lowering makes the comparison case-insensitive. |
| Hobbies.CapitalisedHobbyScoresFull | js/prediction.js:244-273 | ["Reading"] against ["reading"] scores 100 whatever the draw. |
| Hobbies.SimilarityAtMostOne | js/prediction.js:259-269 | Without repeated entries in the first list, the similarity ratio is at most 1. |
| Hobbies.RepeatedHobbyOvershoots | js/prediction.js:259-272 | For lists ["a","a"] and ["a"] the ratio is 2, and only the final clamp holds the score at 100. |
| Hobbies.RepeatedHobbyRatioGrows | js/prediction.js:259-269 | For every n ≥ 1, n copies of a hobby against that hobby alone give a ratio of n, so the ratio has no upper bound. |
| Hobbies.SameHobbiesScoreFull | js/prediction.js:255-272 | Identical non-empty hobby lists score 100 whatever the draw. |
| Hobbies.HobbiesMatchAsymmetric | js/prediction.js:259-272 | Swapping the lists can change the score: 67 one way and 33 the other for the same draw. |
| Lifestyle.CircularDistanceShortestWay | js/prediction.js:281-291 | The circular distance is the smaller of the forward and backward step counts. It is at most half the cycle, symmetric, and 0 exactly for equal positions. |
| Lifestyle.MonthDistance | js/prediction.js:281-282 | The month difference lies in [0, 6]. |
| Lifestyle.DayDistance | js/prediction.js:289-290 | The day difference lies in [0, 15]. |
| Lifestyle.SeasonScore | js/prediction.js:283 | The season score lies in [10, 100] and is 100 exactly for the same month. |
| Lifestyle.RoutineScore | js/prediction.js:291 | The routine score lies in [25, 100] and is 100 exactly for the same day. |
| Lifestyle.LifestyleMatch | js/prediction.js:276-296 | The lifestyle score lies in [40, 100]. |
| Lifestyle.LifestyleMatchSymmetric | js/prediction.js:276-296 | Swapping the two people leaves the lifestyle score unchanged. |
| Lifestyle.SameBirthdayLifestyleFull | js/prediction.js:293-295 | The same month and day score 100 whatever the draw. |
| Zodiac.ZodiacSignMatchesCalendar | js/prediction.js:331-349 | For every valid month and day, the chain of tests gives the sign of a reference cutoff calendar. So each date gets exactly one sign and no date is left unclaimed. |
| Zodiac.CapricornIsTheFallThrough | js/prediction.js:347-348 | The dates that fall through to Capricorn are exactly December 22 to January 19. |
| Zodiac.EverySignOccurs | js/prediction.js:337-348 | Each of the twelve signs is assigned to the first day of its range. |
| Zodiac.TableComplete | js/prediction.js:305-324 | Every sign pair is in the table with an entry in [50, 95], so the default 70 is never used. |
| Zodiac.TableSymmetric | js/prediction.js:305-318 | The authored table is symmetric. |
| Zodiac.ZodiacMatch | js/prediction.js:299-328 | The zodiac score is within 5 of the table entry and lies in [45, 100], so the clamp never binds. |
| Zodiac.ZodiacMatchSymmetric | js/prediction.js:299-328 | Swapping the birthdays leaves the zodiac score unchanged. |
| Summary.BracketExactlyOne | js/prediction.js:366-380 | The `>=` chain selects bracket k exactly when the score lies in the k-th range. The six ranges cover every integer and do not overlap. |
| Summary.GenerateSummary | js/prediction.js:366-380 | The summary begins with the first name, followed by one character and then the second name. |
| Summary.SummaryNamesBoth | js/prediction.js:366-380 | Every summary contains both names. |
| Summary.DifferentBracketsDiffer | js/prediction.js:366-380 | Scores in different brackets give different summaries for the same names. |
| Summary.SummaryRevealsBracket | js/prediction.js:366-380 | For fixed names, two scores give the same summary exactly when they fall in the same bracket. |
| Predictor.LongTermPotential | js/prediction.js:352-363 | The long-term score is NaN exactly when both names are empty; otherwise it lies in [40, 100]. |
| Predictor.WeightedTotal | js/prediction.js:131-137 | The rounded weighted total lies between the smallest and largest sub-score, because the weights sum to 1. |
| Predictor.TotalScore | js/prediction.js:131-137 | The total is NaN exactly when the personality or long-term score is. If every sub-score is in [0, 100], so is the total. |
| Predictor.TotalFloor | js/prediction.js:131-137 | With the sub-scores at or above their floors (33, 30, 40, 45, 40), a finite total is at least 37. |
| Predictor.FallbackPrediction | js/prediction.js:122-156 | The result carries both people. With at least one name, every score is a number in [0, 100] and the total is at least 37. With two empty names, the score is NaN and the summary is the bottom bracket's. |
| Predictor.AnalyzeRemote | js/prediction.js:28-119 | An empty API key fails before anything else. A transport failure or a non-ok status fails without extraction. A parsed result gets both people attached and keeps its score, details and summary. |
| Predictor.PredictCompatibility | js/prediction.js:11-25 | A remote success returns the remote result unchanged. Any remote failure, and in particular an empty API key, yields exactly the local fallback prediction. Either way both people are attached. |
| Predictor.SameProfileScoresHigh | js/prediction.js:164-296 | For identical non-empty names, identical birthdays and identical non-empty hobby lists, the birthday, hobby and lifestyle scores are 100 and personality is at least 97. (Two empty hobby lists score 50, and two empty names give NaN.) |
| Predictor.AliceAndBobNameScore | js/prediction.js:182-203 | "Alice" and "Bob" share no letter, so their name score is 40 whatever the draw. |
| Predictor.AliceAndBobBirthdayScore | js/prediction.js:206-226 | 1990-05-15 and 1991-05-20 give a birthday score of 94. |
| Predictor.AliceAndBobZodiacScore | js/prediction.js:299-349 | Both birthdays are Taurus, so the zodiac score lies in [75, 85]. |
| Predictor.AliceAndBobWithoutKey | js/prediction.js:11-32 | With no API key, Alice and Bob get the fallback prediction. It is well-formed and its summary names both. |

## Left out

- The remote request itself is not modelled: the prompt text, the HTTP
  call and the regular-expression extraction of JSON from the model's
  reply (js/prediction.js:35-109). The HTTP status and the extracted
  prediction are inputs to `Predictor.AnalyzeRemote`. The remote result's
  scores are not validated by the source, so no range is claimed for them.
- The module-level mutable API key and `setApiKey` are not modelled. The
  key is a parameter instead.
- Parsing birthday strings with `new Date(...)` is not modelled. Its
  results depend on the host's time zone, and invalid strings give NaN.
  Birthdays are decoded integer triples, and the month and day ranges a
  JavaScript `Date` guarantees are preconditions.
- `toLowerCase` folds only ASCII letters here. Full Unicode case mapping
  is host-library behaviour.
- A Dafny `string` is a sequence of Unicode scalar values, while
  JavaScript strings are sequences of UTF-16 code units. The name score's
  `split('')` and `Set`, and the `includes` of the hobby score and the
  summary, work on code units in the source and on scalar values here.
  The two agree on the Basic Multilingual Plane. They differ for characters
  outside it. For example, "😀" and "😁" share a high surrogate, so the
  source counts one shared unit, but the model sees disjoint sets.
- IEEE floating-point rounding error is not modelled. Sums are exact
  reals.
- The random draws are not modelled as a stream. Each draw is a named
  input, and the model claims nothing about their distribution, only
  their range. When both hobby lists are empty the source draws no number
  for the hobby score, and the unused draw is ignored. With exactly one
  empty list it draws one number, as in the non-empty case.
- `values` and `communication` are carried in `Person` but do not affect
  any score, as in the source.
- `js/main.js` (form wiring, settings dialog, storage, sharing, result
  rendering) and `js/animations.js` (visual effects) are UI code and not
  part of this model.

=== FILE: counting.dfy ===
/** Facts about the sizes of finite sets that the similarity ratios rest on. */
module Counting {

  /** Inclusion-exclusion: the size the source computes as the union is the
      size of the union. */
  lemma UnionSize<T>(a: set<T>, b: set<T>)
    ensures |a + b| == |a| + |b| - |a * b|
  {
  }

  /** A subset is no larger than its superset, and equally large only when
      it is the whole superset. */
  lemma {:induction false} SubsetSize<T>(s: set<T>, t: set<T>)
    requires s <= t
    ensures |s| <= |t|
    ensures |s| == |t| ==> s == t
    decreases |t|
  {
    if t != {} {
      var x :| x in t;
      SubsetSize(s - {x}, t - {x});
      if x in s {
        assert |s - {x}| == |s| - 1;
        assert |s| == |t| ==> s == (s - {x}) + {x} == (t - {x}) + {x} == t;
      } else {
        assert s - {x} == s;
      }
    }
  }

  /** A list has at least as many entries as distinct entries, and exactly as
      many when no entry repeats. */
  lemma {:induction false} DistinctEntries<T>(l: seq<T>)
    ensures |set x | x in l| <= |l|
    ensures (forall i, j :: 0 <= i < j < |l| ==> l[i] != l[j]) ==> |set x | x in l| == |l|
  {
    if l != [] {
      var init := l[..|l| - 1];
      DistinctEntries(init);
      var last := l[|l| - 1];
      assert l == init + [last];
      assert (set x | x in l) == (set x | x in init) + {last};
      if last in init {
        assert (set x | x in l) == (set x | x in init);
      } else {
        assert |(set x | x in init) + {last}| == |set x | x in init| + 1;
      }
      if forall i, j :: 0 <= i < j < |l| ==> l[i] != l[j] {
        forall k | 0 <= k < |init|
          ensures init[k] != last
        {
          assert init[k] == l[k];
        }
        assert forall i, j :: 0 <= i < j < |init| ==> init[i] != init[j] by {
          forall i, j | 0 <= i < j < |init|
            ensures init[i] != init[j]
          {
            assert init[i] == l[i] && init[j] == l[j];
          }
        }
      }
    }
  }
}

=== FILE: hobbies.dfy ===
/** The hobby sub-score (js/prediction.js, `calculateHobbiesMatch`): a fixed
    50 when neither person lists a hobby, a random 40..59 when only one does,
    and otherwise the number of list-1 hobbies that overlap some list-2 hobby
    as substrings, over the number of distinct hobbies, as a percentage plus
    up to 20 random points, clamped to [30, 100]. */
module Hobbies {
  import opened JsMath
  import opened Profiles
  import opened Counting

  /** One of the two hobbies occurs inside the other. */
  predicate Related(a: string, b: string) {
    Includes(b, a) || Includes(a, b)
  }

  /** `others.some(h => h.includes(hobby) || hobby.includes(h))`. */
  function Overlaps(hobby: string, others: seq<string>): bool
  {
    others != [] && (Related(hobby, others[0]) || Overlaps(hobby, others[1..]))
  }

  /** The scan finds an overlap exactly when some entry is related. */
  lemma {:induction false} OverlapsIffSome(hobby: string, others: seq<string>)
    ensures Overlaps(hobby, others) <==> exists k :: 0 <= k < |others| && Related(hobby, others[k])
  {
    if others != [] {
      OverlapsIffSome(hobby, others[1..]);
      if exists k :: 0 <= k < |others| && Related(hobby, others[k]) {
        var k :| 0 <= k < |others| && Related(hobby, others[k]);
        if k > 0 {
          assert others[1..][k - 1] == others[k];
        }
      }
      if Overlaps(hobby, others[1..]) {
        var k :| 0 <= k < |others[1..]| && Related(hobby, others[1..][k]);
        assert others[k + 1] == others[1..][k];
      }
    }
  }

  /** The source's `commonHobbies`: how many entries of `l1`, duplicates
      included, overlap some entry of `l2`. */
  function CommonCount(l1: seq<string>, l2: seq<string>): nat
  {
    if l1 == [] then 0
    else CommonCount(l1[..|l1| - 1], l2) + (if Overlaps(l1[|l1| - 1], l2) then 1 else 0)
  }

  /** The count never exceeds the length of the first list, and reaches it
      exactly when every entry overlaps. */
  lemma {:induction false} CommonCountBound(l1: seq<string>, l2: seq<string>)
    ensures CommonCount(l1, l2) <= |l1|
    ensures CommonCount(l1, l2) == |l1| <==> forall i :: 0 <= i < |l1| ==> Overlaps(l1[i], l2)
  {
    if l1 != [] {
      var init := l1[..|l1| - 1];
      CommonCountBound(init, l2);
      assert forall i :: 0 <= i < |init| ==> init[i] == l1[i];
    }
  }

  /** `new Set([...l1, ...l2]).size`. */
  function DistinctCount(l1: seq<string>, l2: seq<string>): (n: nat)
    ensures l1 != [] || l2 != [] ==> n > 0
    ensures n <= |l1| + |l2|
  {
    var u := set h | h in l1 + l2;
    assert l1 + l2 != [] ==> (l1 + l2)[0] in u;
    DistinctEntries(l1 + l2);
    |u|
  }

  /** `commonHobbies / totalUniqueHobbies` for two non-empty lowered lists. */
  function Similarity(l1: seq<string>, l2: seq<string>): (q: real)
    requires l1 != []
    ensures 0.0 <= q
  {
    CommonCount(l1, l2) as real / DistinctCount(l1, l2) as real
  }

  /** The hobby score. */
  function HobbiesMatch(hobbies1: seq<string>, hobbies2: seq<string>, r: Draw): (s: int)
    ensures hobbies1 == [] && hobbies2 == [] ==> s == 50
    ensures (hobbies1 == []) != (hobbies2 == []) ==> 40 <= s <= 59
    ensures hobbies1 != [] && hobbies2 != [] ==> 30 <= s <= 100
  {
    if |hobbies1| == 0 && |hobbies2| == 0 then 50
    else if |hobbies1| == 0 || |hobbies2| == 0 then 40 + RandomInt(r, 20)
    else
      var similarity := Similarity(LowerAll(hobbies1), LowerAll(hobbies2));
      Clamp(Round(similarity * 100.0 + r * 20.0), 30, 100)
  }

  /** The hobby score ignores case: a hobby list can be replaced by any
      list with the same lower-case entries. */
  lemma HobbyScoreIgnoresCase(hobbies1: seq<string>, other1: seq<string>, hobbies2: seq<string>, r: Draw)
    requires LowerAll(hobbies1) == LowerAll(other1)
    ensures HobbiesMatch(hobbies1, hobbies2, r) == HobbiesMatch(other1, hobbies2, r)
  {
    assert |hobbies1| == |LowerAll(hobbies1)| == |other1|;
  }

  /** The same hobby written in two cases scores the maximum. */
  lemma CapitalisedHobbyScoresFull(r: Draw)
    ensures HobbiesMatch(["Reading"], ["reading"], r) == 100
  {
    LowerKeepsLowercase("reading");
    assert Lower("Reading") == "reading";
    assert LowerAll(["Reading"]) == LowerAll(["reading"]);
    HobbyScoreIgnoresCase(["Reading"], ["reading"], ["reading"], r);
    SameHobbiesScoreFull(["reading"], r);
  }

  /** When no lowered entry of the first list repeats, the similarity stays
      within [0, 1]. */
  lemma SimilarityAtMostOne(l1: seq<string>, l2: seq<string>)
    requires l1 != []
    requires forall i, j :: 0 <= i < j < |l1| ==> l1[i] != l1[j]
    ensures Similarity(l1, l2) <= 1.0
  {
    CommonCountBound(l1, l2);
    DistinctEntries(l1);
    var s1 := set h | h in l1;
    assert s1 <= set h | h in l1 + l2;
    SubsetSize(s1, set h | h in l1 + l2);
    assert CommonCount(l1, l2) <= DistinctCount(l1, l2);
    RatioVersusOne(CommonCount(l1, l2), DistinctCount(l1, l2));
  }

  /** A repeated entry in the first list is counted twice while the distinct
      count sees it once: the similarity reaches 2 and only the final clamp
      keeps the score at 100. */
  lemma RepeatedHobbyOvershoots(r: Draw)
    ensures Similarity(["a", "a"], ["a"]) == 2.0
    ensures HobbiesMatch(["a", "a"], ["a"], r) == 100
  {
    IncludesSelf("a");
    assert Overlaps("a", ["a"]);
    assert ["a", "a"][..1] == ["a"];
    assert (set h | h in ["a", "a"] + ["a"]) == {"a"};
    LowerKeepsLowercase("a");
    assert LowerAll(["a", "a"]) == ["a", "a"];
    assert LowerAll(["a"]) == ["a"];
  }

  /** The overshoot has no bound: `n` copies of one hobby against that
      hobby alone give a similarity of `n`. */
  lemma RepeatedHobbyRatioGrows(n: nat)
    requires n >= 1
    ensures Similarity(seq(n, i => "a"), ["a"]) == n as real
  {
    var l := seq(n, i => "a");
    IncludesSelf("a");
    assert Overlaps("a", ["a"]);
    assert forall i :: 0 <= i < |l| ==> Overlaps(l[i], ["a"]);
    CommonCountBound(l, ["a"]);
    assert (set h | h in l + ["a"]) == {"a"};
  }

  /** Every entry of a list overlaps the list itself. */
  lemma SelfOverlap(l: seq<string>)
    ensures CommonCount(l, l) == |l|
  {
    forall i | 0 <= i < |l|
      ensures Overlaps(l[i], l)
    {
      IncludesSelf(l[i]);
      OverlapsIffSome(l[i], l);
    }
    CommonCountBound(l, l);
  }

  /** Identical non-empty hobby lists score the maximum whatever the draw. */
  lemma SameHobbiesScoreFull(hobbies: seq<string>, r: Draw)
    requires hobbies != []
    ensures HobbiesMatch(hobbies, hobbies, r) == 100
  {
    var lower := LowerAll(hobbies);
    SelfOverlap(lower);
    DistinctEntries(lower + lower);
    assert (set h | h in lower + lower) == set h | h in lower;
    DistinctEntries(lower);
    assert DistinctCount(lower, lower) <= CommonCount(lower, lower);
    RatioVersusOne(CommonCount(lower, lower), DistinctCount(lower, lower));
    assert Similarity(lower, lower) >= 1.0;
  }

  /** The similarity is not symmetric: it counts entries of the first list
      only, so swapping the lists can change the score. */
  lemma HobbiesMatchAsymmetric()
    ensures HobbiesMatch(["a", "ab"], ["abc"], 0.0) == 67
    ensures HobbiesMatch(["abc"], ["a", "ab"], 0.0) == 33
  {
    LowerKeepsLowercase("a");
    LowerKeepsLowercase("ab");
    LowerKeepsLowercase("abc");
    assert LowerAll(["a", "ab"]) == ["a", "ab"];
    assert LowerAll(["abc"]) == ["abc"];
    assert Includes("abc", "a") && Includes("abc", "ab");
    assert Overlaps("a", ["abc"]) && Overlaps("ab", ["abc"]);
    assert Overlaps("abc", ["a", "ab"]);
    assert ["a", "ab"][..1] == ["a"];
    assert CommonCount(["a", "ab"], ["abc"]) == 2;
    assert CommonCount(["abc"], ["a", "ab"]) == 1;
    assert (set h | h in ["a", "ab"] + ["abc"]) == {"a", "ab", "abc"};
    assert (set h | h in ["abc"] + ["a", "ab"]) == {"a", "ab", "abc"};
  }
}

=== FILE: jsmath.dfy ===
/** The JavaScript arithmetic the scorer relies on, stated over mathematical
    integers and reals: `Math.round`, `Math.min`/`Math.max` used as a clamp,
    `Math.floor(Math.random() * k)`, and the NaN that a `0 / 0` produces. */
module JsMath {

  /** One value returned by `Math.random()`: a real in [0, 1). */
  type Draw = r: real | 0.0 <= r < 1.0 witness 0.0

  /** A score as it flows through the scorer: an integer, or NaN. */
  datatype Num = Finite(value: int) | NaN

  function Abs(x: int): (a: nat)
    ensures a == x || a == -x
  {
    if x < 0 then -x else x
  }

  function Min(a: int, b: int): (m: int)
    ensures m <= a && m <= b
    ensures m == a || m == b
  {
    if a <= b then a else b
  }

  function Max(a: int, b: int): (m: int)
    ensures a <= m && b <= m
    ensures m == a || m == b
  {
    if a <= b then b else a
  }

  /** `Math.round(x)`: the nearest integer, halves rounded upwards. */
  function Round(x: real): (n: int)
    ensures x - 0.5 < n as real <= x + 0.5
  {
    (x + 0.5).Floor
  }

  /** `Math.min(hi, Math.max(lo, x))`. */
  function Clamp(x: int, lo: int, hi: int): (c: int)
    requires lo <= hi
    ensures lo <= c <= hi
    ensures lo <= x <= hi ==> c == x
    ensures x < lo ==> c == lo
    ensures hi < x ==> c == hi
  {
    Min(hi, Max(lo, x))
  }

  /** `Math.floor(Math.random() * k)`: a uniform integer in [0, k). */
  function RandomInt(r: Draw, k: int): (n: int)
    ensures k > 0 ==> 0 <= n < k
  {
    assert k > 0 ==> r * (k as real) < k as real;
    (r * k as real).Floor
  }

  /** Rounding is monotone, so it keeps any integer bounds of its argument. */
  lemma RoundWithin(x: real, lo: int, hi: int)
    requires lo as real <= x <= hi as real
    ensures lo <= Round(x) <= hi
  {
  }

  /** A ratio of counts is at most 1 when the numerator is at most the
      denominator, and at least 1 when it is at least the denominator. */
  lemma RatioVersusOne(a: nat, b: nat)
    requires b > 0
    ensures a <= b ==> a as real / b as real <= 1.0
    ensures b <= a ==> a as real / b as real >= 1.0
  {
    var q := a as real / b as real;
    assert q * b as real == a as real;
  }
}

=== FILE: lifestyle.dfy ===
/** The lifestyle sub-score (js/prediction.js, `calculateLifestyleMatch`):
    birth months compared around a 12-month cycle ("season"), birth days
    around a 31-day cycle ("routine"), blended 0.4 / 0.6, plus up to 15
    random points, clamped to [40, 100]. */
module Lifestyle {
  import opened JsMath
  import opened Profiles

  /** `Math.min(|a - b|, n - |a - b|)`: how far apart `a` and `b` sit on a
      cycle of length `n`, the shorter way round. */
  function CircularDistance(a: int, b: int, n: int): int
  {
    Min(Abs(a - b), n - Abs(a - b))
  }

  /** How many single steps forward lead from `a` to `b` on a cycle of
      length `n`. */
  function StepsForward(a: int, b: int, n: int): int
  {
    if a <= b then b - a else b - a + n
  }

  /** For positions on the cycle, the distance is the fewer of the forward
      and backward step counts, and at most half the cycle. */
  lemma CircularDistanceShortestWay(a: int, b: int, n: int)
    requires n > 0 && 0 <= a < n && 0 <= b < n
    ensures CircularDistance(a, b, n) == Min(StepsForward(a, b, n), StepsForward(b, a, n))
    ensures 0 <= 2 * CircularDistance(a, b, n) <= n
    ensures CircularDistance(a, b, n) == CircularDistance(b, a, n)
    ensures CircularDistance(a, b, n) == 0 <==> a == b
  {
  }

  /** The season distance: months 1..12 around a 12-month year. */
  function MonthDistance(d1: Date, d2: Date): (k: int)
    requires ValidDate(d1) && ValidDate(d2)
    ensures 0 <= k <= 6
  {
    CircularDistanceShortestWay(d1.month - 1, d2.month - 1, 12);
    CircularDistance(d1.month, d2.month, 12)
  }

  /** The routine distance: days 1..31 around a 31-day cycle. */
  function DayDistance(d1: Date, d2: Date): (k: int)
    requires ValidDate(d1) && ValidDate(d2)
    ensures 0 <= k <= 15
  {
    CircularDistanceShortestWay(d1.day - 1, d2.day - 1, 31);
    CircularDistance(d1.day, d2.day, 31)
  }

  function SeasonScore(d1: Date, d2: Date): (s: int)
    requires ValidDate(d1) && ValidDate(d2)
    ensures 10 <= s <= 100
    ensures s == 100 <==> d1.month == d2.month
  {
    CircularDistanceShortestWay(d1.month - 1, d2.month - 1, 12);
    Max(0, 100 - MonthDistance(d1, d2) * 15)
  }

  function RoutineScore(d1: Date, d2: Date): (s: int)
    requires ValidDate(d1) && ValidDate(d2)
    ensures 25 <= s <= 100
    ensures s == 100 <==> d1.day == d2.day
  {
    CircularDistanceShortestWay(d1.day - 1, d2.day - 1, 31);
    Max(0, 100 - DayDistance(d1, d2) * 5)
  }

  /** The lifestyle score. */
  function LifestyleMatch(p1: Person, p2: Person, r: Draw): (s: int)
    requires ValidDate(p1.birthday) && ValidDate(p2.birthday)
    ensures 40 <= s <= 100
  {
    var base := SeasonScore(p1.birthday, p2.birthday) as real * 0.4
              + RoutineScore(p1.birthday, p2.birthday) as real * 0.6;
    Clamp(Round(base + r * 15.0), 40, 100)
  }

  /** Swapping the two people leaves the lifestyle score unchanged. */
  lemma LifestyleMatchSymmetric(p1: Person, p2: Person, r: Draw)
    requires ValidDate(p1.birthday) && ValidDate(p2.birthday)
    ensures LifestyleMatch(p1, p2, r) == LifestyleMatch(p2, p1, r)
  {
    assert SeasonScore(p1.birthday, p2.birthday) == SeasonScore(p2.birthday, p1.birthday);
    assert RoutineScore(p1.birthday, p2.birthday) == RoutineScore(p2.birthday, p1.birthday);
  }

  /** Two people born on the same month and day score the maximum whatever
      the draw. */
  lemma SameBirthdayLifestyleFull(p1: Person, p2: Person, r: Draw)
    requires ValidDate(p1.birthday) && ValidDate(p2.birthday)
    requires p1.birthday.month == p2.birthday.month && p1.birthday.day == p2.birthday.day
    ensures LifestyleMatch(p1, p2, r) == 100
  {
  }
}

=== FILE: namematch.dfy ===
/** Name compatibility: the Jaccard similarity of the two names' character
    sets, scaled to a percentage, plus up to 30 random points, clamped to
    [40, 100] (js/prediction.js, `calculateNameCompatibility`). */
module NameMatch {
  import opened JsMath
  import opened Profiles
  import opened Counting

  /** `new Set(name.toLowerCase().split(''))`. */
  function CharSet(name: string): (a: set<char>)
    ensures forall c :: c in a <==> c in Lower(name)
    ensures a == {} <==> name == []
  {
    var a := set c | c in Lower(name);
    assert name != [] ==> Lower(name)[0] in a;
    a
  }

  /** The shared count is bounded by both sets, and the union count bounds
      both sets from above. */
  lemma SharedAndUnionBounds<T>(a: set<T>, b: set<T>)
    ensures |a * b| <= |a| && |a * b| <= |b|
    ensures |a| <= |a| + |b| - |a * b| && |b| <= |a| + |b| - |a * b|
  {
    SubsetSize(a * b, a);
    SubsetSize(a * b, b);
  }

  /** The Jaccard similarity |A ∩ B| / |A ∪ B|, with the union counted as
      |A| + |B| − |A ∩ B| as the source does. */
  function Jaccard(a: set<char>, b: set<char>): (j: real)
    requires a + b != {}
    ensures 0.0 <= j <= 1.0
    ensures j == 1.0 <==> a == b
    ensures j == 0.0 <==> a * b == {}
  {
    UnionSize(a, b);
    SubsetSize(a * b, a + b);
    var shared := |a * b|;
    var union := |a| + |b| - shared;
    assert a * b == a + b ==> a == b by {
      if a * b == a + b {
        assert forall c :: c in a ==> c in a + b;
        assert forall c :: c in b ==> c in a + b;
      }
    }
    assert 0 <= shared <= union && union > 0;
    RatioVersusOne(shared, union);
    shared as real / union as real
  }

  /** Jaccard similarity does not depend on the order of its arguments. */
  lemma JaccardSymmetric(a: set<char>, b: set<char>)
    requires a + b != {}
    ensures Jaccard(a, b) == Jaccard(b, a)
  {
    assert a * b == b * a;
    assert a + b == b + a;
  }

  /** The name score. When both names are empty the union is 0 and the
      source's `0 / 0` yields NaN, which every later step passes on. */
  function NameCompatibility(name1: string, name2: string, r: Draw): (s: Num)
    ensures s.NaN? <==> name1 == [] && name2 == []
    ensures s.Finite? ==> 40 <= s.value <= 100
  {
    var a := CharSet(name1);
    var b := CharSet(name2);
    UnionSize(a, b);
    var union := |a| + |b| - |a * b|;
    if union == 0 then
      NaN
    else
      Finite(Clamp(Round(Jaccard(a, b) * 100.0 + r * 30.0), 40, 100))
  }

  /** The name score is symmetric in the two names. */
  lemma NameCompatibilitySymmetric(name1: string, name2: string, r: Draw)
    ensures NameCompatibility(name1, name2, r) == NameCompatibility(name2, name1, r)
  {
    var a := CharSet(name1);
    var b := CharSet(name2);
    assert a * b == b * a;
    if a + b != {} {
      JaccardSymmetric(a, b);
    }
  }

  /** The name score ignores case: a name can be replaced by any name with
      the same lower-case form. */
  lemma NameScoreIgnoresCase(name1: string, other1: string, name2: string, r: Draw)
    requires Lower(name1) == Lower(other1)
    ensures NameCompatibility(name1, name2, r) == NameCompatibility(other1, name2, r)
  {
    assert CharSet(name1) == CharSet(other1);
  }

  /** The same name in upper and lower case scores the maximum. */
  lemma UpperAndLowerNameScoreFull(r: Draw)
    ensures NameCompatibility("ALICE", "alice", r) == Finite(100)
  {
    LowerKeepsLowercase("alice");
    assert Lower("ALICE") == "alice";
    NameScoreIgnoresCase("ALICE", "alice", "alice", r);
    SameNameScoresFull("alice", r);
  }

  /** Two equal non-empty names score the maximum whatever the draw. */
  lemma SameNameScoresFull(name: string, r: Draw)
    requires name != []
    ensures NameCompatibility(name, name, r) == Finite(100)
  {
  }

  /** The counting loop of the source: walks the first set and counts the
      characters the second set also holds. */
  method CountShared(a: set<char>, b: set<char>) returns (shared: nat)
    ensures shared == |a * b|
  {
    shared := 0;
    var rest := a;
    while rest != {}
      invariant rest <= a
      invariant shared + |rest * b| == |a * b|
      decreases |rest|
    {
      var c :| c in rest;
      if c in b {
        assert (rest - {c}) * b == rest * b - {c};
        shared := shared + 1;
      } else {
        assert (rest - {c}) * b == rest * b;
      }
      rest := rest - {c};
    }
    assert rest * b == {};
  }
}

=== FILE: personality.dfy ===
/** The personality sub-score: a 0.4 / 0.4 / 0.2 blend of the name, birthday
    and gender scores (js/prediction.js, `calculatePersonalityMatch` and the
    two helpers it calls besides the name score). */
module Personality {
  import opened JsMath
  import opened Profiles
  import NameMatch

  /** 100 for the same birth year, 5 points less per year apart, never below 0. */
  function AgeDiffScore(d1: Date, d2: Date): (s: int)
    ensures 0 <= s <= 100
    ensures s == 100 <==> d1.year == d2.year
    ensures s == 0 <==> Abs(d1.year - d2.year) >= 20
  {
    Max(0, 100 - Abs(d1.year - d2.year) * 5)
  }

  /** 100 for the same month and day, 8 points less per month apart and 1.5
      per day apart (neither difference wraps around), never below 0. */
  function MonthDayScore(d1: Date, d2: Date): (s: real)
    ensures 0.0 <= s <= 100.0
    ensures s == 100.0 <==> d1.month == d2.month && d1.day == d2.day
  {
    var raw := 100.0 - (Abs(d1.month - d2.month) * 8) as real - (Abs(d1.day - d2.day) as real) * 1.5;
    if raw < 0.0 then 0.0 else raw
  }

  /** The birthday score. It reaches 100 exactly when the years and months
      agree and the days are at most one apart. */
  function BirthdayCompatibility(d1: Date, d2: Date): (s: int)
    ensures 0 <= s <= 100
    ensures s == 100 <==>
      d1.year == d2.year && d1.month == d2.month && Abs(d1.day - d2.day) <= 1
  {
    var age := AgeDiffScore(d1, d2);
    var monthDay := MonthDayScore(d1, d2);
    var blend := age as real * 0.7 + monthDay * 0.3;
    RoundWithin(blend, 0, 100);
    assert d1.year != d2.year ==> age <= 95;
    assert d1.month != d2.month ==> monthDay <= 92.0;
    assert Abs(d1.day - d2.day) > 1 ==> monthDay <= 97.0;
    Round(blend)
  }

  lemma BirthdayCompatibilitySymmetric(d1: Date, d2: Date)
    ensures BirthdayCompatibility(d1, d2) == BirthdayCompatibility(d2, d1)
  {
  }

  /** The gender score. The first two branches are complementary and draw
      from the same range, so the third branch is never taken and the score
      always lies in [85, 100]. */
  function GenderCompatibility(gender1: string, gender2: string, r: Draw): (s: int)
    ensures 85 <= s <= 100
  {
    if gender1 == gender2 then 85 + RandomInt(r, 16)
    else if gender1 != gender2 then 85 + RandomInt(r, 16)
    else 70 + RandomInt(r, 31)
  }

  /** The gender score does not depend on the genders at all. */
  lemma GenderIgnoresGenders(g1: string, g2: string, g3: string, g4: string, r: Draw)
    ensures GenderCompatibility(g1, g2, r) == GenderCompatibility(g3, g4, r)
  {
  }

  /** The two random draws the personality score consumes. */
  datatype PersonalityDraws = PersonalityDraws(name: Draw, gender: Draw)

  /** The personality score: NaN exactly when both names are empty, and
      otherwise at least 0.4 * 40 + 0.2 * 85 = 33. */
  function PersonalityMatch(p1: Person, p2: Person, d: PersonalityDraws): (s: Num)
    ensures s.NaN? <==> p1.name == [] && p2.name == []
    ensures s.Finite? ==> 33 <= s.value <= 100
  {
    var name := NameMatch.NameCompatibility(p1.name, p2.name, d.name);
    var birthday := BirthdayCompatibility(p1.birthday, p2.birthday);
    var gender := GenderCompatibility(p1.gender, p2.gender, d.gender);
    match name
    case NaN => NaN
    case Finite(n) =>
      var blend := n as real * 0.4 + birthday as real * 0.4 + gender as real * 0.2;
      RoundWithin(blend, 33, 100);
      Finite(Round(blend))
  }

  /** Swapping the two people leaves the personality score unchanged. */
  lemma PersonalityMatchSymmetric(p1: Person, p2: Person, d: PersonalityDraws)
    ensures PersonalityMatch(p1, p2, d) == PersonalityMatch(p2, p1, d)
  {
    NameMatch.NameCompatibilitySymmetric(p1.name, p2.name, d.name);
    BirthdayCompatibilitySymmetric(p1.birthday, p2.birthday);
  }
}

=== FILE: predictor.dfy ===
/** The predictor as a whole (js/prediction.js): the local fallback that
    combines the five sub-scores into a weighted total and a summary, and
    the entry point that tries the remote model first and falls back to the
    local scorer on any failure. */
module Predictor {
  import opened JsMath
  import opened Profiles
  import opened Personality
  import Hobbies
  import Lifestyle
  import Zodiac
  import Summary

  /** The four draws the long-term score consumes: it recomputes the
      personality, hobby and lifestyle scores with fresh draws, then adds
      its own jitter. */
  datatype LongTermDraws = LongTermDraws(
    personality: PersonalityDraws,
    hobbies: Draw,
    lifestyle: Draw,
    jitter: Draw)

  /** Every draw one run of the local fallback consumes. (When neither
      person lists a hobby the source draws no number for the hobby score;
      the unused field is then simply ignored.) */
  datatype FallbackDraws = FallbackDraws(
    personality: PersonalityDraws,
    hobbies: Draw,
    lifestyle: Draw,
    zodiac: Draw,
    longTerm: LongTermDraws)

  /** The long-term score: 0.4 / 0.3 / 0.3 of freshly recomputed personality,
      hobby and lifestyle scores, moved by a random amount in [-5, 5),
      clamped to [40, 100]. NaN exactly when the personality score is. */
  function LongTermPotential(p1: Person, p2: Person, d: LongTermDraws): (s: Num)
    requires ValidDate(p1.birthday) && ValidDate(p2.birthday)
    ensures s.NaN? <==> p1.name == [] && p2.name == []
    ensures s.Finite? ==> 40 <= s.value <= 100
  {
    match PersonalityMatch(p1, p2, d.personality)
    case NaN => NaN
    case Finite(personality) =>
      var hobbies := Hobbies.HobbiesMatch(p1.hobbies, p2.hobbies, d.hobbies);
      var lifestyle := Lifestyle.LifestyleMatch(p1, p2, d.lifestyle);
      var base := personality as real * 0.4 + hobbies as real * 0.3 + lifestyle as real * 0.3;
      Finite(Clamp(Round(base + d.jitter * 10.0 - 5.0), 40, 100))
  }

  /** The overall score: the weights 0.25, 0.2, 0.2, 0.15 and 0.2 sum to 1,
      so the rounded total lies between the smallest and the largest of the
      five sub-scores. */
  function WeightedTotal(personality: int, hobbies: int, lifestyle: int, zodiac: int, longTerm: int): (t: int)
    ensures Min(Min(Min(Min(personality, hobbies), lifestyle), zodiac), longTerm) <= t
    ensures t <= Max(Max(Max(Max(personality, hobbies), lifestyle), zodiac), longTerm)
  {
    var lo := Min(Min(Min(Min(personality, hobbies), lifestyle), zodiac), longTerm);
    var hi := Max(Max(Max(Max(personality, hobbies), lifestyle), zodiac), longTerm);
    var sum := personality as real * 0.25 + hobbies as real * 0.2 + lifestyle as real * 0.2
             + zodiac as real * 0.15 + longTerm as real * 0.2;
    RoundWithin(sum, lo, hi);
    Round(sum)
  }

  /** `score` over `Num`: NaN when either NaN-capable sub-score is NaN. */
  function TotalScore(personality: Num, hobbies: int, lifestyle: int, zodiac: int, longTerm: Num): (t: Num)
    ensures t.NaN? <==> personality.NaN? || longTerm.NaN?
    ensures t.Finite? ==>
      (0 <= personality.value && 0 <= hobbies && 0 <= lifestyle && 0 <= zodiac && 0 <= longTerm.value
       ==> 0 <= t.value)
    ensures t.Finite? ==>
      (personality.value <= 100 && hobbies <= 100 && lifestyle <= 100 && zodiac <= 100 && longTerm.value <= 100
       ==> t.value <= 100)
  {
    if personality.NaN? || longTerm.NaN? then NaN
    else Finite(WeightedTotal(personality.value, hobbies, lifestyle, zodiac, longTerm.value))
  }

  /** With every sub-score at its own floor (33, 30, 40, 45 and 40) the
      weighted total is 37, so no finite total falls below that. */
  lemma TotalFloor(personality: Num, hobbies: int, lifestyle: int, zodiac: int, longTerm: Num)
    requires personality.Finite? ==> 33 <= personality.value
    requires longTerm.Finite? ==> 40 <= longTerm.value
    requires 30 <= hobbies && 40 <= lifestyle && 45 <= zodiac
    ensures TotalScore(personality, hobbies, lifestyle, zodiac, longTerm).Finite? ==>
      37 <= TotalScore(personality, hobbies, lifestyle, zodiac, longTerm).value
  {
  }

  datatype Details = Details(
    personality: Num,
    hobbies: int,
    lifestyle: int,
    zodiac: int,
    longTerm: Num)

  datatype Prediction = Prediction(
    score: Num,
    person1: Person,
    person2: Person,
    details: Details,
    summary: string)

  predicate Percent(n: Num) {
    n.Finite? && 0 <= n.value <= 100
  }

  /** The result invariant: the overall score and all five sub-scores are
      numbers in [0, 100]. */
  predicate WellFormed(r: Prediction) {
    && Percent(r.score)
    && Percent(r.details.personality)
    && 0 <= r.details.hobbies <= 100
    && 0 <= r.details.lifestyle <= 100
    && 0 <= r.details.zodiac <= 100
    && Percent(r.details.longTerm)
  }

  /** The local fallback prediction. With at least one non-empty name every
      score is a number in [0, 100] (the total in fact at least 37); with
      two empty names the score is NaN and the summary is the bottom
      bracket's. */
  function FallbackPrediction(p1: Person, p2: Person, d: FallbackDraws): (r: Prediction)
    requires ValidDate(p1.birthday) && ValidDate(p2.birthday)
    ensures r.person1 == p1 && r.person2 == p2
    ensures r.score.NaN? <==> p1.name == [] && p2.name == []
    ensures p1.name != [] || p2.name != [] ==> WellFormed(r) && 37 <= r.score.value
    ensures r.summary == Summary.GenerateSummary(r.score, p1.name, p2.name)
    ensures r.score.NaN? ==> Summary.Bracket(r.score) == 5
  {
    var personality := PersonalityMatch(p1, p2, d.personality);
    var hobbies := Hobbies.HobbiesMatch(p1.hobbies, p2.hobbies, d.hobbies);
    var lifestyle := Lifestyle.LifestyleMatch(p1, p2, d.lifestyle);
    var zodiac := Zodiac.ZodiacMatch(p1.birthday, p2.birthday, d.zodiac);
    var longTerm := LongTermPotential(p1, p2, d.longTerm);
    var score := TotalScore(personality, hobbies, lifestyle, zodiac, longTerm);
    TotalFloor(personality, hobbies, lifestyle, zodiac, longTerm);
    Prediction(
      score, p1, p2,
      Details(personality, hobbies, lifestyle, zodiac, longTerm),
      Summary.GenerateSummary(score, p1.name, p2.name))
  }

  datatype Option<T> = None | Some(value: T)

  /** Why the remote path gave up. */
  datatype RemoteError =
    | MissingApiKey
    | NetworkFailure
    | RequestFailed(status: int, statusText: string)
    | Unparseable

  /** What the remote endpoint returned: the HTTP status, and the prediction
      the JSON extraction obtained from the reply text, or None when no JSON
      could be found or parsed. */
  datatype HttpReply = HttpReply(ok: bool, status: int, statusText: string, extracted: Option<Prediction>)

  datatype Outcome = Done(value: Prediction) | Failed(error: RemoteError)

  /** The remote path with the network call as an input: `transport` is
      None when the request itself failed. */
  function AnalyzeRemote(apiKey: string, transport: Option<HttpReply>, p1: Person, p2: Person): (o: Outcome)
    ensures apiKey == "" <==> o == Failed(MissingApiKey)
    ensures apiKey != "" && transport.None? ==> o == Failed(NetworkFailure)
    ensures apiKey != "" && transport.Some? && !transport.value.ok ==>
      o == Failed(RequestFailed(transport.value.status, transport.value.statusText))
    ensures o.Done? <==> apiKey != "" && transport.Some? && transport.value.ok
                         && transport.value.extracted.Some?
    ensures o.Done? ==> o.value.person1 == p1 && o.value.person2 == p2
    ensures o.Done? ==> o.value.score == transport.value.extracted.value.score
                        && o.value.details == transport.value.extracted.value.details
                        && o.value.summary == transport.value.extracted.value.summary
  {
    if apiKey == "" then Failed(MissingApiKey)
    else match transport
      case None => Failed(NetworkFailure)
      case Some(reply) =>
        if !reply.ok then Failed(RequestFailed(reply.status, reply.statusText))
        else match reply.extracted
          case None => Failed(Unparseable)
          case Some(result) => Done(result.(person1 := p1, person2 := p2))
  }

  /** `predictCompatibility`: the remote answer when there is one, the local
      fallback on any failure. */
  function PredictCompatibility(apiKey: string, transport: Option<HttpReply>,
                                p1: Person, p2: Person, d: FallbackDraws): (r: Prediction)
    requires ValidDate(p1.birthday) && ValidDate(p2.birthday)
    ensures r.person1 == p1 && r.person2 == p2
    ensures apiKey == "" ==> r == FallbackPrediction(p1, p2, d)
    ensures AnalyzeRemote(apiKey, transport, p1, p2).Failed? ==> r == FallbackPrediction(p1, p2, d)
    ensures AnalyzeRemote(apiKey, transport, p1, p2).Done? ==> r == AnalyzeRemote(apiKey, transport, p1, p2).value
  {
    match AnalyzeRemote(apiKey, transport, p1, p2)
    case Done(result) => result
    case Failed(_) => FallbackPrediction(p1, p2, d)
  }

  /** Two people with the same non-empty name, birthday and non-empty hobby
      list: the name, birthday, hobby and lifestyle scores are all 100
      whatever the draws, which puts the personality score at 97 or more. */
  lemma SameProfileScoresHigh(p1: Person, p2: Person, d: FallbackDraws)
    requires ValidDate(p1.birthday)
    requires p1.name != [] && p1.hobbies != []
    requires p2.name == p1.name && p2.birthday == p1.birthday && p2.hobbies == p1.hobbies
    ensures BirthdayCompatibility(p1.birthday, p2.birthday) == 100
    ensures FallbackPrediction(p1, p2, d).details.hobbies == 100
    ensures FallbackPrediction(p1, p2, d).details.lifestyle == 100
    ensures 97 <= FallbackPrediction(p1, p2, d).details.personality.value
  {
    NameMatch.SameNameScoresFull(p1.name, d.personality.name);
    Hobbies.SameHobbiesScoreFull(p1.hobbies, d.hobbies);
    Lifestyle.SameBirthdayLifestyleFull(p1, p2, d.lifestyle);
    var blend := 100.0 * 0.4 + 100.0 * 0.4
               + GenderCompatibility(p1.gender, p2.gender, d.personality.gender) as real * 0.2;
    RoundWithin(blend, 97, 100);
  }

  const Alice := Person("Alice", "F", Date(1990, 5, 15), ["reading", "hiking"], [], "")
  const Bob := Person("Bob", "M", Date(1991, 5, 20), ["hiking", "gaming"], [], "")

  /** Alice and Bob share no letter, so their Jaccard similarity is 0 and
      the name score is the floor 40 whatever the draw. */
  lemma AliceAndBobNameScore(r: Draw)
    ensures NameMatch.NameCompatibility("Alice", "Bob", r) == Finite(40)
  {
  }

  /** One year and five days apart: 0.7 * 95 + 0.3 * 92.5 = 94.25, so 94. */
  lemma AliceAndBobBirthdayScore()
    ensures BirthdayCompatibility(Alice.birthday, Bob.birthday) == 94
  {
  }

  /** Both are Taurus, whose table entry with itself is 80. */
  lemma AliceAndBobZodiacScore(r: Draw)
    ensures 75 <= Zodiac.ZodiacMatch(Alice.birthday, Bob.birthday, r) <= 85
  {
  }

  /** With no API key, Alice and Bob get the local prediction: a well-formed
      result whose summary names both. */
  lemma AliceAndBobWithoutKey(transport: Option<HttpReply>, d: FallbackDraws)
    ensures PredictCompatibility("", transport, Alice, Bob, d) == FallbackPrediction(Alice, Bob, d)
    ensures WellFormed(PredictCompatibility("", transport, Alice, Bob, d))
    ensures Includes(PredictCompatibility("", transport, Alice, Bob, d).summary, "Alice")
    ensures Includes(PredictCompatibility("", transport, Alice, Bob, d).summary, "Bob")
  {
    var r := FallbackPrediction(Alice, Bob, d);
    Summary.SummaryNamesBoth(r.score, "Alice", "Bob");
  }
}

=== FILE: profiles.dfy ===
/** The two people being compared, as the form collects them, and the
    JavaScript string operations the scorer applies to their fields. */
module Profiles {

  /** A birthday, already decoded from its date string: `month` counts from 1. */
  datatype Date = Date(year: int, month: int, day: int)

  /** What a JavaScript `Date` guarantees of the month and day it reports. */
  predicate ValidDate(d: Date) {
    1 <= d.month <= 12 && 1 <= d.day <= 31
  }

  datatype Person = Person(
    name: string,
    gender: string,
    birthday: Date,
    hobbies: seq<string>,
    values: seq<string>,
    communication: string)

  /** `toLowerCase` on one character, for the ASCII letters. */
  function ToLower(c: char): (l: char)
    ensures 'A' <= c <= 'Z' ==> l as int == c as int + 32 && 'a' <= l <= 'z'
    ensures !('A' <= c <= 'Z') ==> l == c
  {
    if 'A' <= c <= 'Z' then (c as int - 'A' as int + 'a' as int) as char else c
  }

  /** Two characters fold together exactly when they are equal or one is
      the upper-case ASCII form of the other. */
  lemma ToLowerFoldsCase(c: char, d: char)
    ensures ToLower(c) == ToLower(d) <==>
      || c == d
      || ('A' <= c <= 'Z' && d as int == c as int + 32)
      || ('A' <= d <= 'Z' && c as int == d as int + 32)
  {
  }

  /** `s.toLowerCase()`: folds every character and keeps the length. */
  function Lower(s: string): (t: string)
    ensures |t| == |s|
    ensures forall i :: 0 <= i < |s| ==> t[i] == ToLower(s[i])
  {
    seq(|s|, i requires 0 <= i < |s| => ToLower(s[i]))
  }

  /** `list.map(h => h.toLowerCase())`. */
  function LowerAll(l: seq<string>): (m: seq<string>)
    ensures |m| == |l|
    ensures forall i :: 0 <= i < |l| ==> m[i] == Lower(l[i])
  {
    seq(|l|, i requires 0 <= i < |l| => Lower(l[i]))
  }

  /** A string with no upper-case ASCII letter is its own lower-case form. */
  lemma LowerKeepsLowercase(s: string)
    requires forall i :: 0 <= i < |s| ==> !('A' <= s[i] <= 'Z')
    ensures Lower(s) == s
  {
  }

  /** JavaScript's `t.includes(s)`. */
  function Includes(t: string, s: string): bool
    decreases |t|
  {
    s <= t || (t != [] && Includes(t[1..], s))
  }

  /** `s` occurs in `t` starting at position `i`. */
  predicate OccursAt(t: string, s: string, i: int) {
    0 <= i <= |t| - |s| && t[i..i + |s|] == s
  }

  /** `Includes` agrees with the positional definition of a substring. */
  lemma {:induction false} IncludesIffOccurs(t: string, s: string)
    ensures Includes(t, s) <==> exists i :: OccursAt(t, s, i)
    decreases |t|
  {
    if s <= t {
      assert OccursAt(t, s, 0);
    } else if t == [] {
    } else {
      IncludesIffOccurs(t[1..], s);
      if Includes(t[1..], s) {
        var i :| OccursAt(t[1..], s, i);
        assert OccursAt(t, s, i + 1);
      }
      if exists i :: OccursAt(t, s, i) {
        var i :| OccursAt(t, s, i);
        assert i != 0;
        assert OccursAt(t[1..], s, i - 1);
      }
    }
  }

  /** Every string includes itself. */
  lemma IncludesSelf(s: string)
    ensures Includes(s, s)
  {
  }
}

=== FILE: summary.dfy ===
/** The narrative summary (js/prediction.js, `generateSummary`): one of six
    fixed texts, chosen by score bracket, each opening with both names. */
module Summary {
  import opened JsMath
  import opened Profiles

  /** The bracket the source's chain of `>=` tests selects, 0 for the top
      (90 and above) to 5 for the bottom (below 50). A NaN score fails every
      test and lands in the bottom bracket. */
  function Bracket(score: Num): int
  {
    match score
    case NaN => 5
    case Finite(s) =>
      if s >= 90 then 0
      else if s >= 80 then 1
      else if s >= 70 then 2
      else if s >= 60 then 3
      else if s >= 50 then 4
      else 5
  }

  /** The lowest score of each of the top five brackets. */
  function BracketFloor(k: int): int
    requires 0 <= k < 5
  {
    90 - 10 * k
  }

  /** The reference reading of the brackets: at least the bracket's floor
      (the bottom bracket has none) and below the floor of the bracket above
      (the top bracket has no ceiling). */
  predicate InBracket(s: int, k: int)
    requires 0 <= k <= 5
  {
    (k == 5 || s >= BracketFloor(k)) && (k == 0 || s < BracketFloor(k - 1))
  }

  /** The chain of tests selects bracket `k` exactly when the score lies in
      it: the brackets cover every integer and do not overlap. */
  lemma BracketExactlyOne(s: int, k: int)
    requires 0 <= k <= 5
    ensures Bracket(Finite(s)) == k <==> InBracket(s, k)
  {
  }

  /** The verdict that follows "<name1>和<name2>的契合度" in each bracket's
      summary, up to its first full stop. */
  function Level(k: int): (w: string)
    ensures |w| > 0
  {
    match k
    case 0 => "非常高！"
    case 1 => "很高！"
    case 2 => "良好。"
    case 3 => "中等。"
    case 4 => "一般。"
    case _ => "较低。"
  }

  /** The rest of each bracket's summary, after the verdict. */
  function Elaboration(k: int): string
  {
    match k
    case 0 => "你们就像是命中注定的一对，在多个方面都有着惊人的相似性和互补性。无论是性格、兴趣还是生活习惯，你们都能很好地融合在一起。这种高度匹配的关系有望发展成为长久而幸福的伴侣关系。"
    case 1 => "你们在重要的方面有着良好的匹配度，彼此之间的吸引力和理解力都很强。虽然可能在某些小方面存在差异，但这些差异往往能够互相补充，使关系更加丰富多彩。"
    case 2 => "你们有足够的共同点来建立稳定的关系，同时也有一些差异带来新鲜感。通过良好的沟通和相互尊重，你们的关系有很大的发展潜力。"
    case 3 => "你们在某些方面很合拍，但在其他方面可能需要更多的理解和包容。这种关系需要双方都愿意做出一些妥协，但如果处理得当，也能发展成为稳定的伴侣关系。"
    case 4 => "你们可能在重要的生活方面有着不同的观念和习惯，这需要双方付出更多努力来维持关系的和谐。不过，差异也能带来学习和成长的机会，如果双方都有意愿，这种关系仍然可以发展。"
    case _ => "你们在多个重要方面可能存在较大差异，这可能会导致关系中出现更多的挑战和摩擦。不过，爱情有时就是克服困难的过程，如果双方都愿意为对方改变和成长，任何关系都有可能成功。"
  }

  /** The summary for a score and the two names. */
  function GenerateSummary(score: Num, name1: string, name2: string): (t: string)
    ensures |t| > |name1| + |name2|
    ensures t[..|name1|] == name1
    ensures t[|name1| + 1..|name1| + 1 + |name2|] == name2
  {
    name1 + "和" + name2 + "的契合度" + Level(Bracket(score)) + Elaboration(Bracket(score))
  }

  /** Every summary mentions both names. */
  lemma SummaryNamesBoth(score: Num, name1: string, name2: string)
    ensures Includes(GenerateSummary(score, name1, name2), name1)
    ensures Includes(GenerateSummary(score, name1, name2), name2)
  {
    var t := GenerateSummary(score, name1, name2);
    assert OccursAt(t, name1, 0);
    assert OccursAt(t, name2, |name1| + 1);
    IncludesIffOccurs(t, name1);
    IncludesIffOccurs(t, name2);
  }

  /** The first character of each verdict differs from bracket to bracket. */
  lemma LevelsDiffer(i: int, j: int)
    requires 0 <= i <= 5 && 0 <= j <= 5 && i != j
    ensures Level(i)[0] != Level(j)[0]
  {
  }

  lemma SummaryCharacterAt(score: Num, name1: string, name2: string)
    ensures |GenerateSummary(score, name1, name2)| > |name1| + |name2| + 5
    ensures GenerateSummary(score, name1, name2)[|name1| + |name2| + 5] == Level(Bracket(score))[0]
  {
    var k := Bracket(score);
    var head := name1 + "和" + name2 + "的契合度";
    assert |head| == |name1| + |name2| + 5;
    assert GenerateSummary(score, name1, name2) == head + (Level(k) + Elaboration(k));
  }

  /** Summaries of two different brackets already differ at the first
      character of the verdict. */
  lemma DifferentBracketsDiffer(s1: Num, s2: Num, name1: string, name2: string)
    requires Bracket(s1) != Bracket(s2)
    ensures GenerateSummary(s1, name1, name2) != GenerateSummary(s2, name1, name2)
  {
    var k1, k2 := Bracket(s1), Bracket(s2);
    LevelsDiffer(k1, k2);
    SummaryCharacterAt(s1, name1, name2);
    SummaryCharacterAt(s2, name1, name2);
  }

  /** The six texts differ, so for fixed names the summary tells the
      bracket: two scores get the same summary exactly when they share a
      bracket. */
  lemma SummaryRevealsBracket(s1: Num, s2: Num, name1: string, name2: string)
    ensures GenerateSummary(s1, name1, name2) == GenerateSummary(s2, name1, name2)
        <==> Bracket(s1) == Bracket(s2)
  {
    if Bracket(s1) != Bracket(s2) {
      DifferentBracketsDiffer(s1, s2, name1, name2);
    }
  }
}

=== FILE: zodiac.dfy ===
/** The zodiac sub-score (js/prediction.js, `getZodiacSign` and
    `calculateZodiacMatch`): each birthday is mapped to its Western tropical
    sign, the pair is looked up in a fixed 12 x 12 table, and a random
    integer in [-5, 5] is added before clamping to [40, 100]. */
module Zodiac {
  import opened JsMath
  import opened Profiles

  datatype Sign =
    | Aries | Taurus | Gemini | Cancer | Leo | Virgo
    | Libra | Scorpio | Sagittarius | Capricorn | Aquarius | Pisces

  /** The source's sign for a 1-based month and a day: the cutoffs are checked
      in order, and every date none of them claims is Capricorn. */
  function ZodiacSign(month: int, day: int): Sign
  {
    if (month == 1 && day >= 20) || (month == 2 && day <= 18) then Aquarius
    else if (month == 2 && day >= 19) || (month == 3 && day <= 20) then Pisces
    else if (month == 3 && day >= 21) || (month == 4 && day <= 19) then Aries
    else if (month == 4 && day >= 20) || (month == 5 && day <= 20) then Taurus
    else if (month == 5 && day >= 21) || (month == 6 && day <= 20) then Gemini
    else if (month == 6 && day >= 21) || (month == 7 && day <= 22) then Cancer
    else if (month == 7 && day >= 23) || (month == 8 && day <= 22) then Leo
    else if (month == 8 && day >= 23) || (month == 9 && day <= 22) then Virgo
    else if (month == 9 && day >= 23) || (month == 10 && day <= 22) then Libra
    else if (month == 10 && day >= 23) || (month == 11 && day <= 21) then Scorpio
    else if (month == 11 && day >= 22) || (month == 12 && day <= 21) then Sagittarius
    else Capricorn
  }

  /** The sign whose range begins in `month` (1-based). */
  function SignStartingIn(month: int): Sign
    requires 1 <= month <= 12
  {
    match month
    case 1 => Aquarius
    case 2 => Pisces
    case 3 => Aries
    case 4 => Taurus
    case 5 => Gemini
    case 6 => Cancer
    case 7 => Leo
    case 8 => Virgo
    case 9 => Libra
    case 10 => Scorpio
    case 11 => Sagittarius
    case _ => Capricorn
  }

  /** The month in which a sign's range begins. */
  function StartMonth(s: Sign): (month: int)
    ensures 1 <= month <= 12 && SignStartingIn(month) == s
  {
    match s
    case Aquarius => 1
    case Pisces => 2
    case Aries => 3
    case Taurus => 4
    case Gemini => 5
    case Cancer => 6
    case Leo => 7
    case Virgo => 8
    case Libra => 9
    case Scorpio => 10
    case Sagittarius => 11
    case Capricorn => 12
  }

  /** The first day of `month` that belongs to the sign starting in it. */
  function FirstDay(month: int): int
    requires 1 <= month <= 12
  {
    match month
    case 1 => 20
    case 2 => 19
    case 3 => 21
    case 4 => 20
    case 5 => 21
    case 6 => 21
    case 7 => 23
    case 8 => 23
    case 9 => 23
    case 10 => 23
    case 11 => 22
    case _ => 22
  }

  /** The reference calendar: from its first day on, a month belongs to the
      sign starting in it; before that, to the sign that started in the
      previous month (December for January). */
  function SignByCutoff(month: int, day: int): Sign
    requires 1 <= month <= 12
  {
    if day >= FirstDay(month) then SignStartingIn(month)
    else SignStartingIn(if month == 1 then 12 else month - 1)
  }

  /** The source's chain of tests assigns every valid date the sign of the
      reference calendar: no date is claimed twice or left unclaimed. */
  lemma ZodiacSignMatchesCalendar(month: int, day: int)
    requires 1 <= month <= 12 && 1 <= day <= 31
    ensures ZodiacSign(month, day) == SignByCutoff(month, day)
  {
  }

  /** The dates that fall through every test are exactly December 22 to
      January 19. */
  lemma CapricornIsTheFallThrough(month: int, day: int)
    requires 1 <= month <= 12 && 1 <= day <= 31
    ensures ZodiacSign(month, day) == Capricorn <==>
      (month == 12 && day >= 22) || (month == 1 && day <= 19)
  {
  }

  /** Every one of the twelve signs is reached, on the first day of its range. */
  lemma EverySignOccurs(s: Sign)
    ensures ZodiacSign(StartMonth(s), FirstDay(StartMonth(s))) == s
  {
  }

  /** The compatibility table, as authored. */
  const Compatibility: map<Sign, map<Sign, int>> := map[
    Aries := map[Aries := 70, Taurus := 60, Gemini := 85, Cancer := 65, Leo := 90, Virgo := 50, Libra := 80, Scorpio := 70, Sagittarius := 90, Capricorn := 55, Aquarius := 75, Pisces := 65],
    Taurus := map[Aries := 60, Taurus := 80, Gemini := 55, Cancer := 90, Leo := 70, Virgo := 95, Libra := 75, Scorpio := 85, Sagittarius := 50, Capricorn := 95, Aquarius := 60, Pisces := 85],
    Gemini := map[Aries := 85, Taurus := 55, Gemini := 75, Cancer := 60, Leo := 85, Virgo := 75, Libra := 90, Scorpio := 60, Sagittarius := 85, Capricorn := 50, Aquarius := 90, Pisces := 65],
    Cancer := map[Aries := 65, Taurus := 90, Gemini := 60, Cancer := 85, Leo := 65, Virgo := 80, Libra := 60, Scorpio := 95, Sagittarius := 55, Capricorn := 75, Aquarius := 50, Pisces := 95],
    Leo := map[Aries := 90, Taurus := 70, Gemini := 85, Cancer := 65, Leo := 80, Virgo := 60, Libra := 90, Scorpio := 70, Sagittarius := 90, Capricorn := 55, Aquarius := 70, Pisces := 65],
    Virgo := map[Aries := 50, Taurus := 95, Gemini := 75, Cancer := 80, Leo := 60, Virgo := 75, Libra := 65, Scorpio := 85, Sagittarius := 55, Capricorn := 90, Aquarius := 60, Pisces := 80],
    Libra := map[Aries := 80, Taurus := 75, Gemini := 90, Cancer := 60, Leo := 90, Virgo := 65, Libra := 75, Scorpio := 70, Sagittarius := 85, Capricorn := 65, Aquarius := 90, Pisces := 70],
    Scorpio := map[Aries := 70, Taurus := 85, Gemini := 60, Cancer := 95, Leo := 70, Virgo := 85, Libra := 70, Scorpio := 85, Sagittarius := 60, Capricorn := 85, Aquarius := 55, Pisces := 95],
    Sagittarius := map[Aries := 90, Taurus := 50, Gemini := 85, Cancer := 55, Leo := 90, Virgo := 55, Libra := 85, Scorpio := 60, Sagittarius := 80, Capricorn := 65, Aquarius := 90, Pisces := 60],
    Capricorn := map[Aries := 55, Taurus := 95, Gemini := 50, Cancer := 75, Leo := 55, Virgo := 90, Libra := 65, Scorpio := 85, Sagittarius := 65, Capricorn := 80, Aquarius := 70, Pisces := 85],
    Aquarius := map[Aries := 75, Taurus := 60, Gemini := 90, Cancer := 50, Leo := 70, Virgo := 60, Libra := 90, Scorpio := 55, Sagittarius := 90, Capricorn := 70, Aquarius := 80, Pisces := 75],
    Pisces := map[Aries := 65, Taurus := 85, Gemini := 65, Cancer := 95, Leo := 65, Virgo := 80, Libra := 70, Scorpio := 95, Sagittarius := 60, Capricorn := 85, Aquarius := 75, Pisces := 85]
  ]

  /** The source's lookup: the table entry when the pair is present and the
      entry is truthy (non-zero), otherwise the default 70. */
  function TableScore(s1: Sign, s2: Sign): int
  {
    if s1 in Compatibility && s2 in Compatibility[s1] && Compatibility[s1][s2] != 0
    then Compatibility[s1][s2]
    else 70
  }

  /** Every pair of signs is in the table with an entry in [50, 95], so the
      default is never used. */
  lemma TableComplete(s1: Sign, s2: Sign)
    ensures s1 in Compatibility && s2 in Compatibility[s1]
    ensures 50 <= Compatibility[s1][s2] <= 95
    ensures TableScore(s1, s2) == Compatibility[s1][s2]
  {
  }

  /** The table, though stored one row per sign, is symmetric. */
  lemma TableSymmetric(s1: Sign, s2: Sign)
    ensures TableScore(s1, s2) == TableScore(s2, s1)
  {
  }

  /** The zodiac score: the table entry moved by at most 5 either way. The
      entries keep it inside [45, 100], so the clamp never binds. */
  function ZodiacMatch(d1: Date, d2: Date, r: Draw): (s: int)
    ensures 45 <= s <= 100
    ensures TableScore(ZodiacSign(d1.month, d1.day), ZodiacSign(d2.month, d2.day)) - 5 <= s
    ensures s <= TableScore(ZodiacSign(d1.month, d1.day), ZodiacSign(d2.month, d2.day)) + 5
  {
    var sign1 := ZodiacSign(d1.month, d1.day);
    var sign2 := ZodiacSign(d2.month, d2.day);
    TableComplete(sign1, sign2);
    Clamp(TableScore(sign1, sign2) + RandomInt(r, 11) - 5, 40, 100)
  }

  /** Swapping the two birthdays leaves the zodiac score unchanged. */
  lemma ZodiacMatchSymmetric(d1: Date, d2: Date, r: Draw)
    ensures ZodiacMatch(d1, d2, r) == ZodiacMatch(d2, d1, r)
  {
    TableSymmetric(ZodiacSign(d1.month, d1.day), ZodiacSign(d2.month, d2.day));
  }
}
